=== FILE: README.md ===
# Assessli companion prototype — a verified model of its core

The Assessli prototype is a single-page Streamlit app (`app.py`). A user registers
a local profile, types chat messages, and gets a templated "mock LBM" reply or,
with their own OpenAI key, a reply from OpenAI. Profiles and messages are kept in
a SQLite file. This project models the three pieces of that app that are logic
rather than presentation:

- **The mock LBM reply** (`mock_lbm_response`), module `Reply`, built on the
  string primitives in `Text`. `Text` covers Python's `str.strip()`,
  `html.escape` (with its default `quote=True`), slicing `s[:n]` and
  `sep.join`.
- **The record store** (`init_db`, `save_user`, `save_message`, `fetch_user`,
  `list_users` and the admin panel's recent-conversations query), module
  `Store`. It is an in-memory pair of tables, each a sequence of rows with
  distinct primary keys. `Database` is the connection: a class whose methods
  update the tables in place. The pure table functions beside it (`Upsert`,
  `InsertConv`, `Lookup`, `ListUsers`, `RecentConversations`) specify those
  methods. `ORDER BY ... DESC` is the keyed insertion sort in `Order`, which
  compares strings code point by code point, as SQLite's BINARY collation does.
- **One chat turn** (the branch of `companion_chat_ui` that runs after the form
  is submitted), module `Chat`. `SubmitTurn` is the step-by-step method. `Turn`
  is the function that specifies it.

Inputs that the app gets from the outside world are parameters here:

- the network (the OpenAI call and the public-IP lookup);
- the clock (`datetime.utcnow()`);
- `uuid.uuid4()`;
- the form's widgets.

These arrive bundled in `Chat.Submission`.

Three consequences of the code are worth knowing when reading the model:

- `generated_by` depends only on whether a key was given (app.py:280). So a reply
  that fell back to the mock LBM after a failed OpenAI call is tagged
  `openai_proxy` (`Chat.FallbackKeepsProxyTag`).
- A failing `save_message` raises out of the turn (app.py:243-244, app.py:283),
  because no `try` surrounds it (`Chat.TurnOutcome.Aborted`).
- The escaped echo can contain `&`, as the start of the entities `html.escape`
  writes; it never contains `<`, `>`, `"` or `'`. The 1000-character cut can
  end in the middle of an entity (for example a trailing `&l`), so
  `Reply.Sanitize` promises that the echo unescapes back to the stripped
  prompt only when nothing was cut.

## Model

| member | source | states |
|---|---|---|
| Text.Strip | app.py:145 | `prompt.strip()` is the part between the leading and trailing whitespace (Python's `isspace` set); it is empty exactly when the prompt is all whitespace and otherwise neither starts nor ends with whitespace |
| Text.StripIdempotent | app.py:145 | stripping an already stripped string changes nothing |
| Text.EscapeChar | app.py:145 | `&`, `<`, `>`, `"`, `'` become `&amp;`, `&lt;`, `&gt;`, `&quot;`, `&#x27;`, each free of markup characters; every other character is kept |
| Text.Escape | app.py:145 | `html.escape` output contains no `<`, `>`, `"` or `'` and is at least as long as its input |
| Text.UnescapeEscape | app.py:145 | escaping loses nothing: decoding the five entities gives the original text back |
| Text.EscapeAgreesWithReplaceChain | app.py:145 | the per-character escape equals the library's chain of `replace` calls with `&` first, then `<`, `>`, `"`, `'` (nothing is escaped twice) |
| Text.Truncate | app.py:145 | `s[:1000]` is a prefix of `s` of length `min(len(s), 1000)` |
| Text.Join | app.py:151 | `sep.join(parts)` is empty for no parts, starts with the first part (and a separator when more follow), and its length is the parts' total length plus one separator between each two |
| Reply.DisplayName | app.py:135 | `name or "Friend"`: the greeting name is never empty; it is the stored name whenever that is present and non-empty, and `"Friend"` when the name is missing or empty |
| Reply.BioOf | app.py:137 | the bio is the `meta` dictionary's `bio` when both are present, and `""` when either is missing |
| Reply.ReplyLines | app.py:139-150 | the reply has 6 segments when the bio is non-empty and 5 otherwise: greeting first, the verbatim (unescaped) bio line second exactly when the bio is non-empty, then lead-in, echo, suggestion, disclaimer |
| Reply.MockLbmResponse | app.py:129-151 | the reply is the greeting, the bio line exactly when the bio is non-empty, the lead-in, the echo, the suggestion and the disclaimer, joined by a blank line in that fixed order |
| Reply.Sanitize | app.py:145-146 | the echoed text is the first `min(len, 1000)` characters of the escaped stripped prompt, free of `<`, `>`, `"`, `'`, and unescapes to the stripped prompt when nothing was cut |
| Reply.OnlyNameAndBioMatter | app.py:135-151 | the reply depends on the profile only through its name and its bio |
| Reply.ReplyStartsWithGreeting | app.py:140 | every reply starts with `"Hi {name}, thanks for sharing that."` and a blank line, so it is never empty |
| Reply.AvaScenario | app.py:135-146 | for Ava with bio "loves hiking" and prompt "hello": greeted as Ava, bio line present, echo is "hello" unchanged |
| Order.InsertDesc | app.py:104 | inserting into a descending listing keeps it descending and adds exactly that row |
| Order.SortDesc | app.py:104 | `ORDER BY ... DESC` returns a permutation of the rows, sorted by the key, largest first |
| Order.SortDescDistinct | app.py:104 | sorting keeps row identities distinct, so no row is listed twice |
| Store.RowOf | app.py:71-77 | `save_user` writes the profile's own id and always a non-empty `meta` column (`json.dumps(user.get("meta", {}))`) |
| Store.ProfileOf | app.py:93-100 | a row reads back with the same id, name, email, phone and creation time; a stored `meta` reads back unchanged and an empty `meta` column reads as `{}` |
| Store.Lookup | app.py:87-92 | the lookup by primary key finds a row with that id exactly when one is stored |
| Store.FetchUser | app.py:87-100 | `fetch_user` returns `None` exactly for an unknown id, never an error, and otherwise a profile with that id |
| Store.Without | app.py:74 | the REPLACE half of `INSERT OR REPLACE` deletes exactly the rows with that id and keeps ids distinct |
| Store.Upsert | app.py:74 | `INSERT OR REPLACE` leaves the new row last, keeps exactly the rows with other ids plus the new row, and keeps ids distinct |
| Store.FetchAfterSave | app.py:71-100 | after `save_user(p)`, ids are still distinct, `fetch_user(p.id)` returns exactly `p` (a missing `meta` as `{}`), and every other id reads as before |
| Store.UpsertSize | app.py:74 | an upsert adds a row exactly when the id was not yet stored |
| Store.ListUsers | app.py:102-116 | `list_users` is a permutation of the stored rows read back as profiles, ordered by `created_at` descending; with distinct ids it lists every stored user exactly once, each as `fetch_user` returns it |
| Store.InsertConv | app.py:79-85 | inserting a message succeeds exactly when its id is not stored; otherwise it fails with a unique-constraint error on that id |
| Store.InsertConvAppends | app.py:79-85 | a fresh id adds exactly one row at the end and leaves the other rows in place; ids stay distinct |
| Store.RecentConversations | app.py:298 | the recent-conversations query returns `min(n, 50)` rows ordered by `ts` descending, each taken from the table without duplication (a sub-multiset), and no row it leaves out is newer than one it shows |
| Store.Database.Connect | app.py:37 | a connection opens the tables an earlier run left in the file |
| Store.Database.InitDb | app.py:36-66 | `init_db` makes both tables exist and never removes or changes rows; calling it again changes nothing |
| Store.Database.SaveUser | app.py:71-77 | `save_user` replaces the `users` table by its upsert with the profile's row; nothing else changes |
| Store.Database.SaveMessage | app.py:79-85 | `save_message` appends the row for a fresh id, and for a stored id reports the error and leaves the table unchanged |
| Store.Database.Fetch | app.py:87-100 | `fetch_user` on the connection is absent exactly for ids not stored, and for a stored id it is that row read back as a profile |
| Store.Database.Users | app.py:102-116 | `list_users` on the connection has one entry per row, newest `created_at` first, no id twice, each entry what `fetch_user` returns for its id, and every stored id listed |
| Store.Database.Recent | app.py:296-299 | the admin panel's query shows `min(n, 50)` rows taken from the table, newest `ts` first, and no row left out is newer than one shown |
| Chat.UserMessage | app.py:234-242 | the user message carries the prompt verbatim, the user's id and the turn's timestamp; its `tech` is the detected report when the profile allows tech info (allowed when the key is missing) and `{}` exactly when it does not |
| Chat.AllowsTech | app.py:234 | tech info is captured unless the profile's `meta` says `allow_tech_info` is false; a missing `meta` or key allows it |
| Chat.ExternalText | app.py:262-264 | the OpenAI reply yields text exactly for a 200 response that carries content, and that text is the content stripped |
| Chat.AssistantText | app.py:246-272 | the reply is the stripped OpenAI content only with a key and a 200 response carrying content; without a key, on a non-200 status, on a body without content or on an exception it is the mock reply |
| Chat.GeneratedBy | app.py:280 | the tag is `mock_lbm` exactly when no key was given |
| Chat.AssistantMessage | app.py:275-282 | the assistant row carries the reply id, the user's id, the assistant role, the reply timestamp, the assistant text, and a `generated_by` tag that is `mock_lbm` exactly when no key was given |
| Chat.Turn | app.py:232-283 | a turn is not sent exactly when the prompt is empty; it only appends to the table; a reply means the optional user row then the assistant row were appended; an abort is the unique violation of the user message (table unchanged) or of the reply (user row kept) |
| Chat.SubmitTurn | app.py:232-283 | the submitted turn leaves the conversations table and returns exactly what `Turn` prescribes; users are untouched |
| Chat.EmptyPromptDoesNothing | app.py:232 | with an empty prompt nothing is stored and nothing is answered |
| Chat.TurnLogsInOrder | app.py:232-283 | with fresh ids the turn always answers, whatever the network did; the user row is appended only when remembered, and always before the assistant row, which is last and tagged `mock_lbm` exactly when no key was given |
| Chat.DuplicateUserIdAborts | app.py:243-244 | a user message whose id is already stored makes the turn raise before any reply, leaving the table unchanged |
| Chat.FallbackKeepsProxyTag | app.py:266-280 | when a key was given but the call failed, the reply equals the no-key reply yet is tagged `openai_proxy` |

## Left out

- Streamlit presentation: `header`, `privacy_and_consent`, the widgets of `register_flow`, the rendering in `admin_panel`, and the tabs and `st.session_state` in `main`. These are user-interface and framework state. The profile a turn runs for is a parameter.
- `register_flow`'s construction of a new profile and its `uuid4`/`utcnow` values. Any profile can be saved with `Store.Database.SaveUser`.
- `try_get_public_ip` and `detect_tech_info` make HTTP calls. Their report is the input `Submission.detected`.
- The OpenAI request itself (headers, payload, timeout). Its outcome is the input `Chat.External`. A body without `choices[0].message.content` is `Responded(200, None)`, which falls back like an exception does.
- `hash_text`: a SHA-256 library call that nothing uses.
- The SQL engine: connections, cursors, commits, `check_same_thread`, durability and crashes. Tables are sequences of rows held in memory.
- Calls made before `init_db`, which would raise "no such table". Every table operation requires `ready`, because `main` always calls `init_db` first.
- `json.dumps`/`json.loads`: the round-trip is assumed exact. `meta` holds only the keys the app reads: `bio`, `allow_tech_info`, `sensitive_data_ack`. Other keys, and values of other JSON types (such as a non-string bio), are not modelled.
- `save_message`'s default `conv.get("metadata", {})`: the only caller always sets metadata.
- Store.ListUsers: rows with equal `created_at` (or equal `ts`, in `Store.RecentConversations`) may come in any order in SQLite. The model fixes one order and states only sortedness and permutation.
- Python strings are sequences of code points, and so are the model's. `str.isspace` is the fixed list of code points Python treats as whitespace.

=== FILE: chat.dfy ===
/**
 * What `companion_chat_ui` does once the chat form is submitted: log the
 * user's message if asked to, obtain a reply (from OpenAI when a key was
 * given and the call returned 200, otherwise from the mock LBM), and log the
 * reply. The network, the clock and `uuid4` are inputs.
 */
module Chat {
  import opened Wrappers
  import opened Text
  import opened Order
  import opened Store
  import Reply

  /** The outcome of the `requests.post` to OpenAI: a response, or an exception (timeout, transport error). */
  datatype External =
    | Responded(status: int, content: Option<string>)  // content: `resp["choices"][0]["message"]["content"]`, None when that lookup raises
    | Raised

  /** Everything a turn gets from the form, the clock, `uuid4` and the network. */
  datatype Submission = Submission(
    prompt: string,
    remember: bool,          // "Save this message in your conversation log"
    apiKey: string,          // "" when no key was pasted
    detected: Tech,          // what `detect_tech_info` would report
    external: External,      // what the OpenAI call returns, if it is made
    userMessageId: string, userTs: string,
    replyId: string, replyTs: string)

  /** The turn did not run (empty prompt), ended with the reply shown, or raised from `save_message`. */
  datatype TurnOutcome = NotSent | Replied(text: string) | Aborted(error: StoreError)

  /** `user.get("meta", {}).get("allow_tech_info", True)`. */
  function AllowsTech(user: Profile): (b: bool)
    ensures b <==> user.meta.None? || user.meta.value.allowTechInfo != Some(false)
  {
    match user.meta
    case None => true
    case Some(m) => m.allowTechInfo.GetOr(true)
  }

  /** The user message as built before it is (maybe) saved. */
  function UserMessage(user: Profile, s: Submission): (c: ConvRow)
    ensures c.id == s.userMessageId && c.userId == user.id && c.role == UserRole && c.message == s.prompt
    ensures c.metadata.UserMetadata?
    ensures c.metadata.tech == NoTech <==> !AllowsTech(user)
    ensures AllowsTech(user) ==> c.metadata.tech == Captured(s.detected)
    ensures c.ts == s.userTs
  {
    var tech := if AllowsTech(user) then Captured(s.detected) else NoTech;
    ConvRow(s.userMessageId, user.id, UserRole, s.prompt, UserMetadata(tech), s.userTs)
  }

  /** The text a status-200 response yields, or None when the call fails, returns another status, or its body lacks the content. */
  function ExternalText(e: External): (r: Option<string>)
    ensures r.Some? <==> e.Responded? && e.status == 200 && e.content.Some?
    ensures r.Some? ==> r.value == Strip(e.content.value)
  {
    match e
    case Responded(status, content) =>
      if status == 200 && content.Some? then Some(Strip(content.value)) else None
    case Raised => None
  }

  /** `assistant_text`: the external reply only with a key and a 200 response, the mock reply in every other case. */
  function AssistantText(user: Profile, prompt: string, apiKey: string, e: External): (r: string)
    ensures apiKey == "" ==> r == Reply.MockLbmResponse(user, prompt)
    ensures (e.Raised? || e.status != 200) ==> r == Reply.MockLbmResponse(user, prompt)
    ensures apiKey != "" && e.Responded? && e.status == 200 && e.content.Some? ==> r == Strip(e.content.value)
    ensures apiKey != "" && ExternalText(e).None? ==> r == Reply.MockLbmResponse(user, prompt)
  {
    if apiKey != "" then
      match ExternalText(e)
      case Some(t) => t
      case None => Reply.MockLbmResponse(user, prompt)
    else Reply.MockLbmResponse(user, prompt)
  }

  /** `"mock_lbm" if not openai_key else "openai_proxy"`: decided by the key alone, not by where the text came from. */
  function GeneratedBy(apiKey: string): (g: Generator)
    ensures g == MockLbm <==> apiKey == ""
  {
    if apiKey == "" then MockLbm else OpenAiProxy
  }

  /** The assistant's row: the reply text, tagged by the key alone. */
  function AssistantMessage(user: Profile, s: Submission): (c: ConvRow)
    ensures c.id == s.replyId && c.userId == user.id && c.role == AssistantRole && c.ts == s.replyTs
    ensures c.message == AssistantText(user, s.prompt, s.apiKey, s.external)
    ensures c.metadata.AssistantMetadata? && (c.metadata.generatedBy == MockLbm <==> s.apiKey == "")
  {
    ConvRow(s.replyId, user.id, AssistantRole, AssistantText(user, s.prompt, s.apiKey, s.external),
            AssistantMetadata(GeneratedBy(s.apiKey)), s.replyTs)
  }

  /** The turn as a function of the conversations table: its outcome and the table afterwards. */
  function Turn(t: seq<ConvRow>, user: Profile, s: Submission): (r: (TurnOutcome, seq<ConvRow>))
    ensures r.0.NotSent? <==> s.prompt == ""
    ensures |t| <= |r.1| && r.1[..|t|] == t
    ensures r.0.Replied? ==>
      && r.0.text == AssistantText(user, s.prompt, s.apiKey, s.external)
      && r.1 == t + (if s.remember then [UserMessage(user, s)] else []) + [AssistantMessage(user, s)]
    ensures r.0.Aborted? ==>
      || (s.remember && r.0.error == UniqueViolation(s.userMessageId) && HasConv(t, s.userMessageId) && r.1 == t)
      || (r.0.error == UniqueViolation(s.replyId) && r.1 == t + (if s.remember then [UserMessage(user, s)] else []))
  {
    if s.prompt == "" then (NotSent, t)
    else
      var logged := if s.remember then InsertConv(t, UserMessage(user, s)) else Success(t);
      match logged
      case Failure(e) => (Aborted(e), t)
      case Success(t1) =>
        match InsertConv(t1, AssistantMessage(user, s))
        case Failure(e) => (Aborted(e), t1)
        case Success(t2) => (Replied(AssistantText(user, s.prompt, s.apiKey, s.external)), t2)
  }

  /** The submit branch of `companion_chat_ui`. */
  method SubmitTurn(db: Database, user: Profile, s: Submission) returns (outcome: TurnOutcome)
    requires db.Valid() && db.ready
    modifies db`conversations
    ensures db.Valid()
    ensures (outcome, db.conversations) == Turn(old(db.conversations), user, s)
  {
    if s.prompt == "" {
      return NotSent;
    }
    var conv := UserMessage(user, s);
    if s.remember {
      var saved := db.SaveMessage(conv);
      if saved.Failure? {
        return Aborted(saved.error);
      }
    }
    var text: string;
    if s.apiKey != "" {
      match ExternalText(s.external)
      case Some(reply) =>
        text := reply;
      case None =>
        text := Reply.MockLbmResponse(user, s.prompt);
    } else {
      text := Reply.MockLbmResponse(user, s.prompt);
    }
    var reply := ConvRow(s.replyId, user.id, AssistantRole, text, AssistantMetadata(GeneratedBy(s.apiKey)), s.replyTs);
    var saved := db.SaveMessage(reply);
    if saved.Failure? {
      return Aborted(saved.error);
    }
    return Replied(text);
  }

  /** Nothing happens without a prompt. */
  lemma EmptyPromptDoesNothing(t: seq<ConvRow>, user: Profile, s: Submission)
    requires s.prompt == ""
    ensures Turn(t, user, s) == (NotSent, t)
  {
  }

  /**
   * With fresh message ids a turn always answers, whatever the network did: the
   * user message is appended only if it is to be remembered, and the reply is
   * appended after it; the reply row is tagged `mock_lbm` exactly when no key
   * was given, and ids stay distinct.
   */
  lemma TurnLogsInOrder(t: seq<ConvRow>, user: Profile, s: Submission)
    requires DistinctBy(t, ConvId)
    requires s.prompt != ""
    requires !HasConv(t, s.replyId)
    requires s.remember ==> !HasConv(t, s.userMessageId) && s.userMessageId != s.replyId
    ensures var (outcome, t') := Turn(t, user, s);
      && outcome == Replied(AssistantText(user, s.prompt, s.apiKey, s.external))
      && t' == t + (if s.remember then [UserMessage(user, s)] else []) + [AssistantMessage(user, s)]
      && DistinctBy(t', ConvId)
      && t'[|t'| - 1].role == AssistantRole
      && (t'[|t'| - 1].metadata.generatedBy == MockLbm <==> s.apiKey == "")
  {
    var t1 := if s.remember then t + [UserMessage(user, s)] else t;
    if s.remember {
      InsertConvAppends(t, UserMessage(user, s));
      assert !HasConv(t1, s.replyId) by {
        forall i | 0 <= i < |t1| ensures t1[i].id != s.replyId {
          if i < |t| { assert t1[i] == t[i]; }
        }
      }
    }
    InsertConvAppends(t1, AssistantMessage(user, s));
  }

  /** A stored id on the user message makes `save_message` raise before any reply is produced; the table is unchanged. */
  lemma DuplicateUserIdAborts(t: seq<ConvRow>, user: Profile, s: Submission)
    requires s.prompt != "" && s.remember && HasConv(t, s.userMessageId)
    ensures Turn(t, user, s) == (Aborted(UniqueViolation(s.userMessageId)), t)
  {
  }

  /**
   * When a key was given but the call failed, the reply is the one the no-key
   * path gives, yet the row is still tagged `openai_proxy`.
   */
  lemma FallbackKeepsProxyTag(user: Profile, s: Submission)
    requires s.apiKey != "" && ExternalText(s.external).None?
    ensures AssistantMessage(user, s).message == AssistantText(user, s.prompt, "", s.external)
    ensures AssistantMessage(user, s).metadata.generatedBy == OpenAiProxy
  {
  }
}

=== FILE: order.dfy ===
/**
 * `ORDER BY <text column> DESC`: SQLite compares TEXT values code point by code
 * point (its default BINARY collation on UTF-8), and a listing is a permutation
 * of the table sorted by that column, largest first. Rows with equal keys may come
 * in any order; this model puts a newly inserted row before its equals.
 */
module Order {

  /** `a <= b` in SQLite's BINARY collation: a prefix comes first, otherwise the first differing code point decides. */
  predicate StrLe(a: string, b: string) {
    if a == [] then true
    else if b == [] then false
    else if a[0] != b[0] then a[0] < b[0]
    else StrLe(a[1..], b[1..])
  }

  lemma {:induction false} StrLeTotal(a: string, b: string)
    ensures StrLe(a, b) || StrLe(b, a)
  {
    if a != [] && b != [] && a[0] == b[0] {
      StrLeTotal(a[1..], b[1..]);
    }
  }

  lemma {:induction false} StrLeTrans(a: string, b: string, c: string)
    requires StrLe(a, b) && StrLe(b, c)
    ensures StrLe(a, c)
  {
    if a != [] && b != [] && c != [] && a[0] == b[0] == c[0] {
      StrLeTrans(a[1..], b[1..], c[1..]);
    }
  }

  /** Every element's key is at least the key of every element after it. */
  ghost predicate SortedDesc<T>(s: seq<T>, key: T -> string) {
    forall i, j :: 0 <= i < j < |s| ==> StrLe(key(s[j]), key(s[i]))
  }

  /** No two elements share an identity. */
  ghost predicate DistinctBy<T, K>(s: seq<T>, ident: T -> K) {
    forall i, j :: 0 <= i < j < |s| ==> ident(s[i]) != ident(s[j])
  }

  /** A sorted sequence stays sorted under a new head whose key is at least every key in it. */
  lemma ConsSorted<T>(h: T, s: seq<T>, key: T -> string)
    requires SortedDesc(s, key)
    requires forall y :: y in s ==> StrLe(key(y), key(h))
    ensures SortedDesc([h] + s, key)
  {
    var r := [h] + s;
    forall i, j | 0 <= i < j < |r| ensures StrLe(key(r[j]), key(r[i])) {
      if i > 0 { assert r[i] == s[i - 1] && r[j] == s[j - 1]; }
      else { assert r[j] in s; }
    }
  }

  /** In a sorted sequence, the head's key is at least every key. */
  lemma HeadIsLargest<T>(s: seq<T>, key: T -> string)
    requires SortedDesc(s, key) && s != []
    ensures forall y :: y in s ==> StrLe(key(y), key(s[0]))
  {
    forall y | y in s ensures StrLe(key(y), key(s[0])) {
      var k :| 0 <= k < |s| && s[k] == y;
      if k == 0 { StrLeTotal(key(y), key(y)); }
    }
  }

  /** Puts `x` into a descending sequence, before the first element whose key is not above its own. */
  function InsertDesc<T>(x: T, s: seq<T>, key: T -> string): (r: seq<T>)
    ensures multiset(r) == multiset(s) + multiset{x}
    ensures forall y :: y in r ==> y == x || y in s
    ensures SortedDesc(s, key) ==> SortedDesc(r, key)
  {
    if s == [] then [x]
    else if StrLe(key(s[0]), key(x)) then
      assert SortedDesc(s, key) ==> SortedDesc([x] + s, key) by {
        if SortedDesc(s, key) {
          HeadIsLargest(s, key);
          forall y | y in s ensures StrLe(key(y), key(x)) {
            StrLeTrans(key(y), key(s[0]), key(x));
          }
          ConsSorted(x, s, key);
        }
      }
      [x] + s
    else
      var rest := InsertDesc(x, s[1..], key);
      assert s == [s[0]] + s[1..];
      assert SortedDesc(s, key) ==> SortedDesc([s[0]] + rest, key) by {
        if SortedDesc(s, key) {
          StrLeTotal(key(s[0]), key(x));
          HeadIsLargest(s, key);
          assert SortedDesc(s[1..], key);
          assert forall y :: y in s[1..] ==> y in s;
          ConsSorted(s[0], rest, key);
        }
      }
      [s[0]] + rest
  }

  /** Insertion sort, largest key first. */
  function SortDesc<T>(s: seq<T>, key: T -> string): (r: seq<T>)
    ensures multiset(r) == multiset(s)
    ensures SortedDesc(r, key)
  {
    if s == [] then []
    else
      assert s == [s[0]] + s[1..];
      InsertDesc(s[0], SortDesc(s[1..], key), key)
  }

  lemma {:induction false} InsertDescDistinct<T, K>(x: T, s: seq<T>, key: T -> string, ident: T -> K)
    requires DistinctBy(s, ident)
    requires forall y :: y in s ==> ident(y) != ident(x)
    ensures DistinctBy(InsertDesc(x, s, key), ident)
  {
    if s != [] && !StrLe(key(s[0]), key(x)) {
      assert forall y :: y in s[1..] ==> y in s;
      InsertDescDistinct(x, s[1..], key, ident);
      var rest := InsertDesc(x, s[1..], key);
      var r := [s[0]] + rest;
      forall j | 0 < j < |r| ensures ident(r[0]) != ident(r[j]) {
        assert r[j] in rest;
        if r[j] != x {
          var k :| 0 <= k < |s[1..]| && s[1..][k] == r[j];
          assert s[k + 1] == r[j];
        }
      }
    }
  }

  /** Sorting keeps identities distinct: a listing shows each row once. */
  lemma {:induction false} SortDescDistinct<T, K>(s: seq<T>, key: T -> string, ident: T -> K)
    requires DistinctBy(s, ident)
    ensures DistinctBy(SortDesc(s, key), ident)
  {
    if s != [] {
      SortDescDistinct(s[1..], key, ident);
      var sorted := SortDesc(s[1..], key);
      forall y | y in sorted ensures ident(y) != ident(s[0]) {
        assert y in multiset(s[1..]);
        var k :| 0 <= k < |s[1..]| && s[1..][k] == y;
        assert s[k + 1] == y;
      }
      InsertDescDistinct(s[0], sorted, key, ident);
    }
  }
}

=== FILE: reply.dfy ===
/**
 * `mock_lbm_response`: the deterministic "LBM" reply, assembled from the
 * profile's name, the bio remembered in its `meta`, and the prompt.
 */
module Reply {
  import opened Wrappers
  import opened Text
  import opened Store

  /** The separator `"\n\n".join` puts between the reply's segments. */
  const Sep := "\n\n"
  const FallbackName := "Friend"
  const LeadIn := "Here's a thoughtful reply to your message:"
  const Suggestion := "Suggestion: try breaking the task into smaller steps. Which step would you like help with first?"
  const Disclaimer := "(This is a demo response from Assessli's prototype LBM — not medical or legal advice.)"
  /** The most characters of the escaped prompt that are echoed. */
  const EchoLimit := 1000

  /** `user_profile.get("name") or "Friend"`: a missing or empty name falls back to `"Friend"`. */
  function DisplayName(name: Option<string>): (r: string)
    ensures r != ""
    ensures name.Some? && name.value != "" ==> r == name.value
    ensures name.None? || name.value == "" ==> r == FallbackName
  {
    match name
    case Some(n) => if n != "" then n else FallbackName
    case None => FallbackName
  }

  /** `user_profile.get("meta", {}).get("bio", "")`. */
  function BioOf(p: Profile): (r: string)
    ensures p.meta.Some? && p.meta.value.bio.Some? ==> r == p.meta.value.bio.value
    ensures p.meta.None? || p.meta.value.bio.None? ==> r == ""
  {
    match p.meta
    case None => ""
    case Some(m) => m.bio.GetOr("")
  }

  function GreetingLine(p: Profile): string {
    "Hi " + DisplayName(p.name) + ", thanks for sharing that."
  }

  /** The bio is quoted verbatim: it is not escaped. */
  function BioLine(bio: string): string {
    "I remember you said: \"" + bio + "\" — I'll keep that in mind."
  }

  /**
   * `html.escape(prompt.strip())[:1000]`: the first `min(len, 1000)`
   * characters of the escaped, stripped prompt, free of `<`, `>`, `"` and `'`; when
   * nothing was cut off it unescapes to the stripped prompt.
   */
  function Sanitize(prompt: string): (e: string)
    ensures |e| <= EchoLimit && e <= Escape(Strip(prompt))
    ensures |e| == if |Escape(Strip(prompt))| <= EchoLimit then |Escape(Strip(prompt))| else EchoLimit
    ensures NoMarkup(e)
    ensures |Escape(Strip(prompt))| <= EchoLimit ==> Unescape(e) == Strip(prompt)
  {
    var full := Escape(Strip(prompt));
    var e := Truncate(full, EchoLimit);
    assert NoMarkup(e) by {
      forall i | 0 <= i < |e| ensures !IsMarkup(e[i]) {
        assert e[i] == full[i];
      }
    }
    UnescapeEscape(Strip(prompt));
    e
  }

  function EchoLine(prompt: string): string {
    "> " + Sanitize(prompt)
  }

  /** The `reply_lines` list, in the order the function appends to it, around the given echo line. */
  function ReplyLines(p: Profile, echo: string): (r: seq<string>)
    ensures |r| == if BioOf(p) != "" then 6 else 5
    ensures r[0] == GreetingLine(p)
    ensures BioOf(p) != "" ==> r[1] == BioLine(BioOf(p))
    ensures r[|r| - 4] == LeadIn && r[|r| - 3] == echo
    ensures r[|r| - 2] == Suggestion && r[|r| - 1] == Disclaimer
  {
    var bio := BioOf(p);
    if bio != "" then [GreetingLine(p), BioLine(bio), LeadIn, echo, Suggestion, Disclaimer]
    else [GreetingLine(p), LeadIn, echo, Suggestion, Disclaimer]
  }

  /** The joined lines written out: the segments in their fixed order, a blank line between each two. */
  lemma JoinedLines(p: Profile, echo: string)
    ensures Join(Sep, ReplyLines(p, echo)) ==
      (if BioOf(p) != "" then GreetingLine(p) + Sep + BioLine(BioOf(p)) else GreetingLine(p))
      + Sep + LeadIn + Sep + echo + Sep + Suggestion + Sep + Disclaimer
  {
    var g := GreetingLine(p);
    if BioOf(p) != "" {
      var b := BioLine(BioOf(p));
      assert ReplyLines(p, echo) == [g, b, LeadIn, echo, Suggestion, Disclaimer];
      JoinSix(Sep, g, b, LeadIn, echo, Suggestion, Disclaimer);
    } else {
      assert ReplyLines(p, echo) == [g, LeadIn, echo, Suggestion, Disclaimer];
      JoinFive(Sep, g, LeadIn, echo, Suggestion, Disclaimer);
    }
  }

  /**
   * `mock_lbm_response(user_profile, prompt)`: the greeting, then the bio line
   * exactly when the bio is non-empty, then the lead-in, the echo of the prompt,
   * the suggestion and the disclaimer, with a blank line between each two.
   */
  function MockLbmResponse(p: Profile, prompt: string): (r: string)
    ensures r ==
      (if BioOf(p) != "" then GreetingLine(p) + Sep + BioLine(BioOf(p)) else GreetingLine(p))
      + Sep + LeadIn + Sep + EchoLine(prompt) + Sep + Suggestion + Sep + Disclaimer
  {
    JoinedLines(p, EchoLine(prompt));
    Join(Sep, ReplyLines(p, EchoLine(prompt)))
  }

  /** The reply depends on the profile only through its name and its bio. */
  lemma OnlyNameAndBioMatter(p: Profile, q: Profile, prompt: string)
    requires DisplayName(p.name) == DisplayName(q.name) && BioOf(p) == BioOf(q)
    ensures MockLbmResponse(p, prompt) == MockLbmResponse(q, prompt)
  {
    assert ReplyLines(p, EchoLine(prompt)) == ReplyLines(q, EchoLine(prompt));
  }

  /** The reply always starts with the greeting, so it is never empty. */
  lemma ReplyStartsWithGreeting(p: Profile, prompt: string)
    ensures GreetingLine(p) + Sep <= MockLbmResponse(p, prompt)
    ensures |MockLbmResponse(p, prompt)| > |Sep|
  {
    assert |ReplyLines(p, EchoLine(prompt))| >= 2;
  }

  /** "hello" has no surrounding whitespace and no markup, so its echo is itself. */
  lemma HelloIsClean()
    ensures Sanitize("hello") == "hello"
  {
    var h := "hello";
    assert LeadingSpace(h) == 0 && TrailingSpace(h) == 0;
    assert Strip(h) == h;
    assert Escape(h[4..]) == "o";
    assert Escape(h[3..]) == "lo";
    assert Escape(h[2..]) == "llo";
    assert Escape(h[1..]) == "ello";
    assert Escape(h) == h;
  }

  /**
   * A profile named Ava whose bio is "loves hiking", sending "hello", is greeted
   * by name, gets the bio line (the bio is non-empty), and sees "hello" echoed
   * unchanged.
   */
  lemma AvaScenario()
    ensures var ava := Profile("ava", Some("Ava"), Some("a@x.com"), None,
                               Some(Meta(Some("loves hiking"), Some(true), Some(true))), "2025-01-01T00:00:00");
      && DisplayName(ava.name) == "Ava"
      && BioOf(ava) == "loves hiking"
      && Sanitize("hello") == "hello"
  {
    HelloIsClean();
  }
}

=== FILE: store.dfy ===
/**
 * The SQLite file `assessli.db` as an in-memory store of two tables, `users` and
 * `conversations`, each keyed by its `id` column. A table is the sequence of its
 * rows in storage order; `meta` and `metadata` are kept as the values that
 * `json.dumps` wrote, so that reading them back with `json.loads` is exact.
 */
module Store {
  import opened Wrappers
  import opened Order

  /** The keys of a profile's `meta` dictionary that the application reads; `None` is a missing key. */
  datatype Meta = Meta(bio: Option<string>, allowTechInfo: Option<bool>, sensitiveDataAck: Option<bool>)

  /** The empty dictionary `{}`. */
  const EmptyMeta := Meta(None, None, None)

  /** A user dictionary as the application passes it around; `meta: None` is a dictionary without a `meta` key. */
  datatype Profile = Profile(
    id: string, name: Option<string>, email: Option<string>, phone: Option<string>,
    meta: Option<Meta>, createdAt: string)

  /** A row of `users`; its `meta` column is `None` when it holds NULL or empty text. */
  datatype UserRow = UserRow(
    id: string, name: Option<string>, email: Option<string>, phone: Option<string>,
    meta: Option<Meta>, createdAt: string)

  datatype Role = UserRole | AssistantRole

  /** What `detect_tech_info` reports: the public IP, if the lookup succeeded, and the pasted user agent. */
  datatype Tech = Tech(ip: Option<string>, browser: string)

  /** The `tech` entry of a user message: `{}` or a captured report. */
  datatype TechField = NoTech | Captured(info: Tech)

  /** The `generated_by` tag of an assistant message: `"mock_lbm"` or `"openai_proxy"`. */
  datatype Generator = MockLbm | OpenAiProxy

  /** A message's `metadata`: `{"tech": ...}` on user messages, `{"generated_by": ...}` on assistant messages. */
  datatype Metadata = UserMetadata(tech: TechField) | AssistantMetadata(generatedBy: Generator)

  /** A row of `conversations`. */
  datatype ConvRow = ConvRow(
    id: string, userId: string, role: Role, message: string, metadata: Metadata, ts: string)

  /** `sqlite3.IntegrityError: UNIQUE constraint failed: conversations.id`. */
  datatype StoreError = UniqueViolation(id: string)

  function UserId(r: UserRow): string { r.id }
  function ProfileId(p: Profile): string { p.id }
  function ConvId(c: ConvRow): string { c.id }
  function CreatedAt(p: Profile): string { p.createdAt }
  function Ts(c: ConvRow): string { c.ts }

  /** The row `save_user` writes: `meta` becomes `json.dumps(user.get("meta", {}))`, never empty. */
  function RowOf(p: Profile): (r: UserRow)
    ensures r.id == p.id && r.meta.Some?
  {
    UserRow(p.id, p.name, p.email, p.phone, Some(p.meta.GetOr(EmptyMeta)), p.createdAt)
  }

  /** The dictionary `fetch_user` and `list_users` build from a row: an empty `meta` column reads as `{}`. */
  function ProfileOf(r: UserRow): (p: Profile)
    ensures p.id == r.id && p.createdAt == r.createdAt
    ensures p.name == r.name && p.email == r.email && p.phone == r.phone
    ensures r.meta.None? ==> p.meta == Some(EmptyMeta)
    ensures r.meta.Some? ==> p.meta == r.meta
  {
    Profile(r.id, r.name, r.email, r.phone, Some(r.meta.GetOr(EmptyMeta)), r.createdAt)
  }

  /** A profile as it reads back after a save: a missing `meta` becomes `{}`. */
  function Normalized(p: Profile): Profile {
    p.(meta := Some(p.meta.GetOr(EmptyMeta)))
  }

  // ---------------------------------------------------------------------------
  // users
  // ---------------------------------------------------------------------------

  predicate HasUser(t: seq<UserRow>, id: string) {
    exists i :: 0 <= i < |t| && t[i].id == id
  }

  /** `SELECT ... FROM users WHERE id = ?` and `fetchone()`. */
  function Lookup(t: seq<UserRow>, id: string): (r: Option<UserRow>)
    ensures r.None? <==> !HasUser(t, id)
    ensures r.Some? ==> r.value in t && r.value.id == id
  {
    if t == [] then None
    else if t[0].id == id then Some(t[0])
    else
      assert forall i :: 0 < i < |t| ==> t[1..][i - 1] == t[i];
      Lookup(t[1..], id)
  }

  /** In a table whose ids are distinct, looking up a row's id finds that row. */
  lemma {:induction false} LookupUnique(t: seq<UserRow>, k: nat)
    requires DistinctBy(t, UserId)
    requires k < |t|
    ensures Lookup(t, t[k].id) == Some(t[k])
  {
    if k > 0 {
      assert t[0].id != t[k].id by { assert UserId(t[0]) != UserId(t[k]); }
      assert DistinctBy(t[1..], UserId) by {
        forall i, j | 0 <= i < j < |t[1..]| ensures UserId(t[1..][i]) != UserId(t[1..][j]) {
          assert t[1..][i] == t[i + 1] && t[1..][j] == t[j + 1];
        }
      }
      LookupUnique(t[1..], k - 1);
    }
  }

  /** `fetch_user`: the stored profile, or `None` for an unknown id. */
  function FetchUser(t: seq<UserRow>, id: string): (r: Option<Profile>)
    ensures r.None? <==> !HasUser(t, id)
    ensures r.Some? ==> r.value.id == id
  {
    match Lookup(t, id)
    case None => None
    case Some(row) => Some(ProfileOf(row))
  }

  /** The table with the rows whose id is `id` deleted: the first half of `INSERT OR REPLACE`. */
  function Without(t: seq<UserRow>, id: string): (r: seq<UserRow>)
    ensures forall x :: x in r <==> x in t && x.id != id
    ensures DistinctBy(t, UserId) ==> DistinctBy(r, UserId)
  {
    if t == [] then []
    else
      var rest := Without(t[1..], id);
      assert t == [t[0]] + t[1..];
      assert DistinctBy(t, UserId) ==> DistinctBy(t[1..], UserId) by {
        forall i, j | DistinctBy(t, UserId) && 0 <= i < j < |t[1..]|
          ensures UserId(t[1..][i]) != UserId(t[1..][j])
        {
          assert t[1..][i] == t[i + 1] && t[1..][j] == t[j + 1];
        }
      }
      if t[0].id == id then rest
      else
        var r := [t[0]] + rest;
        assert DistinctBy(t, UserId) ==> DistinctBy(r, UserId) by {
          if DistinctBy(t, UserId) {
            forall j | 0 < j < |r| ensures UserId(r[0]) != UserId(r[j]) {
              assert r[j] in t[1..];
              var k :| 0 <= k < |t[1..]| && t[1..][k] == r[j];
              assert t[k + 1] == r[j];
            }
          }
        }
        r
  }

  /** `INSERT OR REPLACE INTO users`: any row with the same id is deleted, then the new row is appended. */
  function Upsert(t: seq<UserRow>, row: UserRow): (r: seq<UserRow>)
    ensures r != [] && r[|r| - 1] == row
    ensures forall x :: x in r <==> x == row || (x in t && x.id != row.id)
    ensures DistinctBy(t, UserId) ==> DistinctBy(r, UserId)
  {
    var w := Without(t, row.id);
    var r := w + [row];
    assert DistinctBy(t, UserId) ==> DistinctBy(r, UserId) by {
      if DistinctBy(t, UserId) {
        forall i, j | 0 <= i < j < |r| ensures UserId(r[i]) != UserId(r[j]) {
          if j == |r| - 1 {
            assert r[i] in w;
          } else {
            assert r[i] == w[i] && r[j] == w[j];
          }
        }
      }
    }
    r
  }

  /**
   * `save_user` is an upsert: afterwards the table still has distinct ids,
   * `fetch_user` on the saved id returns exactly the saved profile (a missing
   * `meta` read back as `{}`), and every other id reads as before.
   */
  lemma FetchAfterSave(t: seq<UserRow>, p: Profile, id: string)
    requires DistinctBy(t, UserId)
    ensures DistinctBy(Upsert(t, RowOf(p)), UserId)
    ensures FetchUser(Upsert(t, RowOf(p)), id) == if id == p.id then Some(Normalized(p)) else FetchUser(t, id)
  {
    var row := RowOf(p);
    var w := Without(t, p.id);
    var u := Upsert(t, row);
    if id == p.id {
      LookupUnique(u, |u| - 1);
    } else if HasUser(t, id) {
      var k :| 0 <= k < |t| && t[k].id == id;
      LookupUnique(t, k);
      assert t[k] in w;
      var m :| 0 <= m < |w| && w[m] == t[k];
      assert u[m] == t[k];
      LookupUnique(u, m);
    } else {
      assert !HasUser(u, id) by {
        forall i | 0 <= i < |u| ensures u[i].id != id {
          if i < |w| { assert u[i] in w; assert u[i] in t; }
        }
      }
    }
  }

  /** An upsert adds a row exactly when the id was not stored yet. */
  lemma UpsertSize(t: seq<UserRow>, p: Profile)
    requires DistinctBy(t, UserId)
    ensures |Upsert(t, RowOf(p))| == if HasUser(t, p.id) then |t| else |t| + 1
  {
    WithoutSize(t, p.id);
  }

  lemma {:induction false} WithoutSize(t: seq<UserRow>, id: string)
    requires DistinctBy(t, UserId)
    ensures |Without(t, id)| == if HasUser(t, id) then |t| - 1 else |t|
  {
    if t != [] {
      assert DistinctBy(t[1..], UserId) by {
        forall i, j | 0 <= i < j < |t[1..]| ensures UserId(t[1..][i]) != UserId(t[1..][j]) {
          assert t[1..][i] == t[i + 1] && t[1..][j] == t[j + 1];
        }
      }
      WithoutSize(t[1..], id);
      if t[0].id == id {
        assert !HasUser(t[1..], id) by {
          forall i | 0 <= i < |t[1..]| ensures t[1..][i].id != id {
            assert UserId(t[0]) != UserId(t[i + 1]);
          }
        }
      } else {
        assert HasUser(t, id) <==> HasUser(t[1..], id) by {
          if HasUser(t, id) {
            var k :| 0 <= k < |t| && t[k].id == id;
            assert t[1..][k - 1] == t[k];
          }
          if HasUser(t[1..], id) {
            var k :| 0 <= k < |t[1..]| && t[1..][k].id == id;
            assert t[k + 1] == t[1..][k];
          }
        }
      }
    }
  }

  function Profiles(t: seq<UserRow>): (r: seq<Profile>)
    ensures |r| == |t| && forall i :: 0 <= i < |t| ==> r[i] == ProfileOf(t[i])
  {
    seq(|t|, i requires 0 <= i < |t| => ProfileOf(t[i]))
  }

  /** Every stored user is listed once, as `fetch_user` returns it, and no id twice. */
  ghost predicate ListsEachOnce(t: seq<UserRow>, r: seq<Profile>) {
    && DistinctBy(r, ProfileId)
    && (forall p :: p in r ==> FetchUser(t, p.id) == Some(p))
    && (forall id :: HasUser(t, id) ==> exists i :: 0 <= i < |r| && r[i].id == id)
  }

  /**
   * `list_users`: `SELECT ... FROM users ORDER BY created_at DESC`. It lists
   * every stored user exactly once, each as `fetch_user` returns it, most
   * recently created first.
   */
  function ListUsers(t: seq<UserRow>): (r: seq<Profile>)
    ensures multiset(r) == multiset(Profiles(t)) && |r| == |t|
    ensures SortedDesc(r, CreatedAt)
    ensures DistinctBy(t, UserId) ==> ListsEachOnce(t, r)
  {
    var ps := Profiles(t);
    var r := SortDesc(ps, CreatedAt);
    assert |r| == |multiset(r)| == |multiset(ps)| == |ps|;
    assert DistinctBy(t, UserId) ==> ListsEachOnce(t, r) by {
      if DistinctBy(t, UserId) {
        assert DistinctBy(ps, ProfileId) by {
          forall i, j | 0 <= i < j < |ps| ensures ProfileId(ps[i]) != ProfileId(ps[j]) {
            assert UserId(t[i]) != UserId(t[j]);
          }
        }
        SortDescDistinct(ps, CreatedAt, ProfileId);
        forall p | p in r ensures FetchUser(t, p.id) == Some(p) {
          assert p in multiset(ps);
          var k :| 0 <= k < |ps| && ps[k] == p;
          LookupUnique(t, k);
        }
        forall id | HasUser(t, id) ensures exists i :: 0 <= i < |r| && r[i].id == id {
          var k :| 0 <= k < |t| && t[k].id == id;
          assert ps[k] in multiset(r);
          var i :| 0 <= i < |r| && r[i] == ps[k];
        }
      }
    }
    r
  }

  // ---------------------------------------------------------------------------
  // conversations
  // ---------------------------------------------------------------------------

  predicate HasConv(t: seq<ConvRow>, id: string) {
    exists i :: 0 <= i < |t| && t[i].id == id
  }

  /** `INSERT INTO conversations`: a fresh id appends the row, a stored one raises. */
  function InsertConv(t: seq<ConvRow>, c: ConvRow): (r: Result<seq<ConvRow>, StoreError>)
    ensures r.Success? <==> !HasConv(t, c.id)
    ensures r.Failure? ==> r.error == UniqueViolation(c.id)
  {
    if HasConv(t, c.id) then Failure(UniqueViolation(c.id)) else Success(t + [c])
  }

  /**
   * `save_message` never replaces: a fresh id adds exactly one row at the end
   * and keeps every other row in place with distinct ids; a stored id fails.
   */
  lemma InsertConvAppends(t: seq<ConvRow>, c: ConvRow)
    requires DistinctBy(t, ConvId)
    ensures match InsertConv(t, c)
      case Success(t') =>
        && |t'| == |t| + 1 && t'[..|t|] == t && t'[|t|] == c
        && DistinctBy(t', ConvId)
      case Failure(e) => HasConv(t, c.id)
  {
    if !HasConv(t, c.id) {
      var t' := t + [c];
      forall i, j | 0 <= i < j < |t'| ensures ConvId(t'[i]) != ConvId(t'[j]) {
        if j == |t| { assert t'[i].id == t[i].id; }
      }
    }
  }

  /** The cap of the admin panel's recent-conversations query. */
  const RecentLimit := 50

  /**
   * `SELECT ... FROM conversations ORDER BY ts DESC LIMIT 50`: at most 50 stored
   * rows, newest first, and every row it leaves out is no newer than any row it
   * shows.
   */
  function RecentConversations(t: seq<ConvRow>): (r: seq<ConvRow>)
    ensures |r| == (if |t| <= RecentLimit then |t| else RecentLimit)
    ensures SortedDesc(r, Ts) && multiset(r) <= multiset(t)
    ensures forall c, d :: c in t && c !in r && d in r ==> StrLe(c.ts, d.ts)
  {
    var sorted := SortDesc(t, Ts);
    var r := if |sorted| <= RecentLimit then sorted else sorted[..RecentLimit];
    assert |sorted| == |multiset(sorted)| == |t|;
    assert sorted == r + sorted[|r|..];
    assert multiset(sorted) == multiset(r) + multiset(sorted[|r|..]);
    assert forall c, d :: c in t && c !in r && d in r ==> StrLe(c.ts, d.ts) by {
      forall c, d | c in t && c !in r && d in r ensures StrLe(c.ts, d.ts) {
        assert c in multiset(sorted);
        var k :| 0 <= k < |sorted| && sorted[k] == c;
        var m :| 0 <= m < |r| && r[m] == d;
        assert sorted[m] == d;
        assert m < k;
        assert StrLe(Ts(sorted[k]), Ts(sorted[m]));
      }
    }
    r
  }

  // ---------------------------------------------------------------------------
  // the connection
  // ---------------------------------------------------------------------------

  /** The tables behind a connection to `assessli.db`. */
  class Database {
    /** Both tables exist (`init_db` has run on this file). */
    var ready: bool
    var users: seq<UserRow>
    var conversations: seq<ConvRow>

    /** Primary keys are unique, and a file without the tables holds no rows. */
    ghost predicate Valid()
      reads this
    {
      && DistinctBy(users, UserId)
      && DistinctBy(conversations, ConvId)
      && (!ready ==> users == [] && conversations == [])
    }

    /** `sqlite3.connect(DB_PATH)`: opens whatever an earlier run left in the file. */
    constructor Connect(users0: seq<UserRow>, conversations0: seq<ConvRow>, ready0: bool)
      requires DistinctBy(users0, UserId) && DistinctBy(conversations0, ConvId)
      requires !ready0 ==> users0 == [] && conversations0 == []
      ensures Valid()
      ensures ready == ready0 && users == users0 && conversations == conversations0
    {
      ready, users, conversations := ready0, users0, conversations0;
    }

    /** `init_db`: `CREATE TABLE IF NOT EXISTS` for both tables; existing rows stay, so a second call changes nothing. */
    method InitDb()
      requires Valid()
      modifies this
      ensures Valid() && ready
      ensures users == old(users) && conversations == old(conversations)
      ensures old(ready) ==> unchanged(this)
    {
      ready := true;
    }

    /** `save_user`. */
    method SaveUser(p: Profile)
      requires Valid() && ready
      modifies this`users
      ensures Valid()
      ensures users == Upsert(old(users), RowOf(p))
    {
      FetchAfterSave(users, p, p.id);
      users := Upsert(users, RowOf(p));
    }

    /** `save_message`: on a duplicate id the INSERT raises and nothing is written. */
    method SaveMessage(c: ConvRow) returns (res: Result<(), StoreError>)
      requires Valid() && ready
      modifies this`conversations
      ensures Valid()
      ensures match InsertConv(old(conversations), c)
        case Success(t) => res.Success? && conversations == t
        case Failure(e) => res == Failure(e) && conversations == old(conversations)
    {
      InsertConvAppends(conversations, c);
      match InsertConv(conversations, c)
      case Success(t) =>
        conversations := t;
        res := Success(());
      case Failure(e) =>
        res := Failure(e);
    }

    /** `fetch_user(conn, id)`. */
    function Fetch(id: string): (r: Option<Profile>)
      reads this
      requires ready && Valid()
      ensures r.None? <==> !HasUser(users, id)
      ensures forall k :: 0 <= k < |users| && users[k].id == id ==> r == Some(ProfileOf(users[k]))
    {
      var r := FetchUser(users, id);
      forall k | 0 <= k < |users| && users[k].id == id
        ensures r == Some(ProfileOf(users[k]))
      {
        LookupUnique(users, k);
      }
      r
    }

    /** `list_users(conn)`. */
    function Users(): (r: seq<Profile>)
      reads this
      requires ready && Valid()
      ensures |r| == |users| && SortedDesc(r, CreatedAt) && DistinctBy(r, ProfileId)
      ensures forall p :: p in r ==> Fetch(p.id) == Some(p)
      ensures forall id :: HasUser(users, id) ==> exists i :: 0 <= i < |r| && r[i].id == id
    {
      ListUsers(users)
    }

    /** The admin panel's recent-conversations query. */
    function Recent(): (r: seq<ConvRow>)
      reads this
      requires ready && Valid()
      ensures |r| == (if |conversations| <= RecentLimit then |conversations| else RecentLimit)
      ensures SortedDesc(r, Ts) && multiset(r) <= multiset(conversations)
      ensures forall c, d :: c in conversations && c !in r && d in r ==> StrLe(c.ts, d.ts)
    {
      RecentConversations(conversations)
    }
  }
}

=== FILE: text.dfy ===
/**
 * The string primitives of the reply generator: Python's `str.strip()`,
 * `html.escape(s)` (with its default `quote=True`), slicing `s[:n]` and
 * `sep.join(parts)`. Strings are sequences of code points.
 */
module Text {

  /** The characters for which Python's `str.isspace()` holds. */
  predicate IsSpace(c: char) {
    || ('\t' <= c <= '\r')
    || ('\U{1c}' <= c <= '\U{1f}')
    || c == ' '
    || c == '\U{85}'
    || c == '\U{a0}'
    || c == '\U{1680}'
    || ('\U{2000}' <= c <= '\U{200a}')
    || c == '\U{2028}'
    || c == '\U{2029}'
    || c == '\U{202f}'
    || c == '\U{205f}'
    || c == '\U{3000}'
  }

  /** The number of whitespace characters `s` starts with. */
  function LeadingSpace(s: string): (n: nat)
    ensures n <= |s|
    ensures forall i :: 0 <= i < n ==> IsSpace(s[i])
    ensures n < |s| ==> !IsSpace(s[n])
  {
    if s != [] && IsSpace(s[0]) then
      var m := LeadingSpace(s[1..]);
      assert forall i :: 1 <= i <= m ==> s[i] == s[1..][i - 1];
      1 + m
    else 0
  }

  /** The number of whitespace characters `s` ends with. */
  function TrailingSpace(s: string): (n: nat)
    ensures n <= |s|
    ensures forall i :: |s| - n <= i < |s| ==> IsSpace(s[i])
    ensures n < |s| ==> !IsSpace(s[|s| - n - 1])
  {
    if s != [] && IsSpace(s[|s| - 1]) then
      var m := TrailingSpace(s[..|s| - 1]);
      assert forall i :: |s| - 1 - m <= i < |s| - 1 ==> s[i] == s[..|s| - 1][i];
      1 + m
    else 0
  }

  /**
   * Python's `s.strip()`: the part of `s` between its leading and its trailing
   * whitespace. It is empty exactly when `s` is all whitespace, and otherwise
   * neither starts nor ends with whitespace.
   */
  function Strip(s: string): (r: string)
    ensures LeadingSpace(s) + |r| <= |s|
    ensures r == s[LeadingSpace(s)..LeadingSpace(s) + |r|]
    ensures forall i :: 0 <= i < |s| && !(LeadingSpace(s) <= i < LeadingSpace(s) + |r|) ==> IsSpace(s[i])
    ensures r == [] <==> forall i :: 0 <= i < |s| ==> IsSpace(s[i])
    ensures r != [] ==> !IsSpace(r[0]) && !IsSpace(r[|r| - 1])
  {
    var a := LeadingSpace(s);
    if a == |s| then ""
    else
      var b := TrailingSpace(s);
      assert a < |s| - b;
      s[a..|s| - b]
  }

  /** Stripping twice is stripping once. */
  lemma StripIdempotent(s: string)
    ensures Strip(Strip(s)) == Strip(s)
  {
    var r := Strip(s);
    if r != [] {
      assert LeadingSpace(r) == 0;
      assert TrailingSpace(r) == 0;
    }
  }

  /** The characters `html.escape(s, quote=True)` rewrites. */
  predicate IsMarkup(c: char) {
    c == '<' || c == '>' || c == '"' || c == '\''
  }

  predicate NoMarkup(s: string) {
    forall i :: 0 <= i < |s| ==> !IsMarkup(s[i])
  }

  /** The replacement `html.escape` makes for one character. */
  function EscapeChar(c: char): (r: string)
    ensures NoMarkup(r) && |r| >= 1
    ensures c == '&' ==> r == "&amp;"
    ensures c == '<' ==> r == "&lt;"
    ensures c == '>' ==> r == "&gt;"
    ensures c == '"' ==> r == "&quot;"
    ensures c == '\'' ==> r == "&#x27;"
    ensures !IsMarkup(c) && c != '&' ==> r == [c]
  {
    if c == '&' then "&amp;"
    else if c == '<' then "&lt;"
    else if c == '>' then "&gt;"
    else if c == '"' then "&quot;"
    else if c == '\'' then "&#x27;"
    else [c]
  }

  /** `html.escape(s)`: every character replaced by its entity, so no markup character is left. */
  function Escape(s: string): (r: string)
    ensures NoMarkup(r)
    ensures |r| >= |s|
  {
    if s == [] then [] else EscapeChar(s[0]) + Escape(s[1..])
  }

  /** The inverse of `Escape`: decodes the five entities `Escape` produces. */
  function Unescape(s: string): string
    decreases |s|
  {
    if s == [] then []
    else if s[0] != '&' then [s[0]] + Unescape(s[1..])
    else if "&amp;" <= s then "&" + Unescape(s[5..])
    else if "&lt;" <= s then "<" + Unescape(s[4..])
    else if "&gt;" <= s then ">" + Unescape(s[4..])
    else if "&quot;" <= s then "\"" + Unescape(s[6..])
    else if "&#x27;" <= s then "'" + Unescape(s[6..])
    else [s[0]] + Unescape(s[1..])
  }

  lemma UnescapeAfterEscapeChar(c: char, rest: string)
    ensures Unescape(EscapeChar(c) + rest) == [c] + Unescape(rest)
  {
    var e := EscapeChar(c) + rest;
    if c == '&' {
      assert "&amp;" <= e && e[5..] == rest;
    } else if c == '<' {
      assert e[1] == 'l' && "&lt;" <= e && e[4..] == rest;
    } else if c == '>' {
      assert e[1] == 'g' && "&gt;" <= e && e[4..] == rest;
    } else if c == '"' {
      assert e[1] == 'q' && "&quot;" <= e && e[6..] == rest;
    } else if c == '\'' {
      assert e[1] == '#' && "&#x27;" <= e && e[6..] == rest;
    } else {
      assert e[0] == c && e[1..] == rest;
    }
  }

  /** Escaping loses nothing: unescaping gives the text back. */
  lemma {:induction false} UnescapeEscape(s: string)
    ensures Unescape(Escape(s)) == s
  {
    if s != [] {
      UnescapeEscape(s[1..]);
      UnescapeAfterEscapeChar(s[0], Escape(s[1..]));
      assert s == [s[0]] + s[1..];
    }
  }

  /** Python's `s.replace(c, rep)` for a one-character pattern. */
  function ReplaceChar(s: string, c: char, rep: string): string {
    if s == [] then [] else (if s[0] == c then rep else [s[0]]) + ReplaceChar(s[1..], c, rep)
  }

  /** `html.escape` as the library writes it: `&` replaced first, then `<`, `>`, `"` and `'`. */
  function EscapeByReplace(s: string): string {
    var s1 := ReplaceChar(s, '&', "&amp;");
    var s2 := ReplaceChar(s1, '<', "&lt;");
    var s3 := ReplaceChar(s2, '>', "&gt;");
    var s4 := ReplaceChar(s3, '"', "&quot;");
    ReplaceChar(s4, '\'', "&#x27;")
  }

  lemma {:induction false} ReplaceCharAppend(a: string, b: string, c: char, rep: string)
    ensures ReplaceChar(a + b, c, rep) == ReplaceChar(a, c, rep) + ReplaceChar(b, c, rep)
  {
    if a != [] {
      ReplaceCharAppend(a[1..], b, c, rep);
      assert (a + b)[1..] == a[1..] + b;
    } else {
      assert a + b == b;
    }
  }

  lemma {:induction false} ReplaceCharAbsent(s: string, c: char, rep: string)
    requires c !in s
    ensures ReplaceChar(s, c, rep) == s
  {
    if s != [] {
      ReplaceCharAbsent(s[1..], c, rep);
    }
  }

  lemma EscapeByReplaceAppend(a: string, b: string)
    ensures EscapeByReplace(a + b) == EscapeByReplace(a) + EscapeByReplace(b)
  {
    ReplaceCharAppend(a, b, '&', "&amp;");
    var a1, b1 := ReplaceChar(a, '&', "&amp;"), ReplaceChar(b, '&', "&amp;");
    ReplaceCharAppend(a1, b1, '<', "&lt;");
    var a2, b2 := ReplaceChar(a1, '<', "&lt;"), ReplaceChar(b1, '<', "&lt;");
    ReplaceCharAppend(a2, b2, '>', "&gt;");
    var a3, b3 := ReplaceChar(a2, '>', "&gt;"), ReplaceChar(b2, '>', "&gt;");
    ReplaceCharAppend(a3, b3, '"', "&quot;");
    var a4, b4 := ReplaceChar(a3, '"', "&quot;"), ReplaceChar(b3, '"', "&quot;");
    ReplaceCharAppend(a4, b4, '\'', "&#x27;");
  }

  /** On a single character, the chain of replacements gives that character's entity. */
  lemma EscapeByReplaceChar(c: char)
    ensures EscapeByReplace([c]) == EscapeChar(c)
  {
    var s1 := ReplaceChar([c], '&', "&amp;");
    var s2 := ReplaceChar(s1, '<', "&lt;");
    var s3 := ReplaceChar(s2, '>', "&gt;");
    var s4 := ReplaceChar(s3, '"', "&quot;");
    assert ReplaceChar([c], '&', "&amp;") == (if c == '&' then "&amp;" else [c]) + ReplaceChar([], '&', "&amp;");
    if c == '&' {
      ReplaceCharAbsent(s1, '<', "&lt;");
      ReplaceCharAbsent(s2, '>', "&gt;");
      ReplaceCharAbsent(s3, '"', "&quot;");
      ReplaceCharAbsent(s4, '\'', "&#x27;");
    } else {
      assert s1 == [c];
      assert ReplaceChar([c], '<', "&lt;") == (if c == '<' then "&lt;" else [c]) + ReplaceChar([], '<', "&lt;");
      if c == '<' {
        ReplaceCharAbsent(s2, '>', "&gt;");
        ReplaceCharAbsent(s3, '"', "&quot;");
        ReplaceCharAbsent(s4, '\'', "&#x27;");
      } else {
        assert s2 == [c];
        assert ReplaceChar([c], '>', "&gt;") == (if c == '>' then "&gt;" else [c]) + ReplaceChar([], '>', "&gt;");
        if c == '>' {
          ReplaceCharAbsent(s3, '"', "&quot;");
          ReplaceCharAbsent(s4, '\'', "&#x27;");
        } else {
          assert s3 == [c];
          assert ReplaceChar([c], '"', "&quot;") == (if c == '"' then "&quot;" else [c]) + ReplaceChar([], '"', "&quot;");
          if c == '"' {
            ReplaceCharAbsent(s4, '\'', "&#x27;");
          } else {
            assert s4 == [c];
            assert ReplaceChar([c], '\'', "&#x27;") == (if c == '\'' then "&#x27;" else [c]) + ReplaceChar([], '\'', "&#x27;");
          }
        }
      }
    }
  }

  /**
   * The per-character `Escape` is the library's sequence of replacements: because
   * `&` goes first, no entity introduced later is escaped a second time.
   */
  lemma {:induction false} EscapeAgreesWithReplaceChain(s: string)
    ensures EscapeByReplace(s) == Escape(s)
  {
    if s != [] {
      EscapeAgreesWithReplaceChain(s[1..]);
      assert s == [s[0]] + s[1..];
      EscapeByReplaceAppend([s[0]], s[1..]);
      EscapeByReplaceChar(s[0]);
    }
  }

  /** Python's `s[:n]`: the longest prefix of `s` that is at most `n` long. */
  function Truncate(s: string, n: nat): (r: string)
    ensures r <= s
    ensures |r| == if |s| <= n then |s| else n
  {
    if |s| <= n then s else s[..n]
  }

  /** The combined length of `parts`. */
  function TotalLength(parts: seq<string>): nat {
    if parts == [] then 0 else |parts[0]| + TotalLength(parts[1..])
  }

  /**
   * Python's `sep.join(parts)`: the parts in order with one separator between
   * each two, so it starts with the first part (and a separator when more follow).
   */
  function Join(sep: string, parts: seq<string>): (r: string)
    ensures parts == [] ==> r == ""
    ensures |parts| >= 1 ==> parts[0] <= r
    ensures |parts| >= 2 ==> parts[0] + sep <= r
    ensures |parts| >= 1 ==> |r| == TotalLength(parts) + (|parts| - 1) * |sep|
  {
    if |parts| == 0 then ""
    else if |parts| == 1 then parts[0]
    else
      var rest := Join(sep, parts[1..]);
      assert (|parts| - 1) * |sep| == |sep| + (|parts| - 2) * |sep|;
      parts[0] + sep + rest
  }

  lemma JoinFive(sep: string, a: string, b: string, c: string, d: string, e: string)
    ensures Join(sep, [a, b, c, d, e]) == a + sep + b + sep + c + sep + d + sep + e
  {
    var parts := [a, b, c, d, e];
    assert parts[1..] == [b, c, d, e];
    assert parts[1..][1..] == [c, d, e];
    assert parts[1..][1..][1..] == [d, e];
    assert parts[1..][1..][1..][1..] == [e];
    assert Join(sep, [d, e]) == d + sep + e;
    assert Join(sep, [c, d, e]) == c + sep + (d + sep + e);
    assert Join(sep, [b, c, d, e]) == b + sep + (c + sep + (d + sep + e));
  }

  lemma JoinSix(sep: string, a: string, b: string, c: string, d: string, e: string, f: string)
    ensures Join(sep, [a, b, c, d, e, f]) == a + sep + b + sep + c + sep + d + sep + e + sep + f
  {
    JoinFive(sep, b, c, d, e, f);
    assert [a, b, c, d, e, f][1..] == [b, c, d, e, f];
  }
}

=== FILE: wrappers.dfy ===
/** Option and Result, the wrappers used throughout the model. */
module Wrappers {

  /** `None` stands for Python's `None` or a missing dictionary key. */
  datatype Option<+T> = None | Some(value: T) {
    function GetOr(default: T): T {
      match this
      case Some(v) => v
      case None => default
    }
  }

  /** The outcome of an operation that can raise. */
  datatype Result<+R, +E> = Success(value: R) | Failure(error: E)
}
